=== FILE: README.md ===
# Player section, modelled in Dafny

The player section is a single-page view over a remote store of players.
It loads the list, filters it by a case-insensitive name search, and creates, edits
and deletes players through a modal form. This project models that section's state
and its event handlers as a pure reducer, `Section.Step(state, event)`, returning
the next state and at most one effect: a request to the remote store, or the alert
about missing fields.

- `wrappers.dfy`: `Option` for a player's id, which is absent until the server assigns
  one, and `Result` for how a request settled.
- `text.dfy`: ASCII lower-casing, the substring test `Includes`, and the search match
  built from them.
- `seqs.dfy`: order-preserving `Filter`, with the subsequence relation, per-value
  counts, and the fact that the filter is the unique subsequence with those counts.
- `players.dfy`: the `Player` record, the form fields, the completeness check made
  before saving, replace-by-id, remove-by-id and the name search.
- `section.dfy`: the state, the events, one function per handler, the reducer `Step`,
  and `Run`, which folds a sequence of events.
- `scenarios.dfy`: concrete runs. Loading Kim and searching "ki" and "zz"; creating
  Lee; saving an empty form; deleting by id.

A request and its completion are two separate events. For example, `SaveClicked`
yields `Send(Post(draft))`, and `Created(Ok(record))` later applies the answer. Each
completion is handled atomically against the state current at that moment.

The model follows the code; in particular:

- The list button always reloads the list. Only its label depends on whether the
  list is visible. The list is never hidden again once shown (`Section.Run`).
- A delete removes the player once the request resolves, whatever HTTP status the
  server answers with. Only a rejected request leaves the list alone.
- Create and update do not check the HTTP status. A player-shaped JSON body is taken
  as the record: it is appended, or it replaces the players with its id. `Fail`
  stands for a rejected request or a body that is not JSON. JSON bodies that are not
  player-shaped are not modelled (see "Left out").
- Closing the form does not clear the draft. Opening the form replaces the draft.

## Model

| member | source | states |
|---|---|---|
| Text.Lower | src/components/PlayerSection.js:92 | `toLowerCase` leaves no upper-case ASCII letter and changes the string only in the case of its letters |
| Text.LowerEqualIff | src/components/PlayerSection.js:92 | two strings lower-case to the same string exactly when they differ only in the case of their letters |
| Text.MatchesSearch | src/components/PlayerSection.js:92 | a name matches a term iff some slice of the name equals the term up to ASCII case |
| Text.Includes | src/components/PlayerSection.js:92 | `includes` is true exactly when the needle occurs at some index of the text; the empty needle occurs in every text |
| Text.LowerIdempotent | src/components/PlayerSection.js:92 | lower-casing an already lower-cased string changes nothing |
| Text.MatchIgnoresTermCase | src/components/PlayerSection.js:92 | two search terms that differ only in the case of their letters match the same names |
| Text.MatchIgnoresNameCase | src/components/PlayerSection.js:92 | two names that differ only in the case of their letters are matched by the same terms |
| Text.EmptyTermMatches | src/components/PlayerSection.js:92 | the empty search term matches every name |
| Seqs.Filter | src/components/PlayerSection.js:84 | `filter` returns no more elements than its input, and a value is in the result iff it is in the input and passes the test |
| Seqs.FilterIsSubseq | src/components/PlayerSection.js:84 | `filter` keeps the input order: the result is a subsequence of the input |
| Seqs.FilterCounts | src/components/PlayerSection.js:84 | each passing value appears as often as in the input; each failing value does not appear |
| Seqs.FilterUnique | src/components/PlayerSection.js:84 | any subsequence of the input that holds only passing values, each as often as the input does, equals the filter result |
| Seqs.FilterKeepsAll | src/components/PlayerSection.js:84 | when every element passes, the result is the input |
| Seqs.FilterIdempotent | src/components/PlayerSection.js:84 | filtering twice with the same test is filtering once |
| Players.WithField | src/components/PlayerSection.js:162-180 | typing into one field sets that field, leaves the other three fields and the id as they were |
| Players.HasAllFields | src/components/PlayerSection.js:37-40 | the check before saving passes iff none of the four form fields is the empty string |
| Players.ReplaceById | src/components/PlayerSection.js:69-71 | the updated list has the old length; at each position, a player with the answered id becomes the answer, any other player stays |
| Players.ReplaceByIdIdempotent | src/components/PlayerSection.js:69-71 | applying the same update answer twice gives the same list as once |
| Players.ReplaceByIdAbsent | src/components/PlayerSection.js:69-71 | an answer whose id no player has leaves the list unchanged |
| Players.ReplaceByIdMembers | src/components/PlayerSection.js:69-71 | afterwards the answer is the only record with its id, and it is in the list iff some player had its id |
| Players.RemoveById | src/components/PlayerSection.js:84 | after a delete, a player is in the list iff it was before and its id differs from the deleted id; the list does not grow |
| Players.RemoveByIdExact | src/components/PlayerSection.js:84 | the delete result is exactly the order-preserving subsequence of players with another id: each kept as often as before, none with the id, and no other subsequence has these properties |
| Players.RemoveByIdIdempotent | src/components/PlayerSection.js:84 | deleting the same id twice equals deleting it once |
| Players.RemoveByIdAbsent | src/components/PlayerSection.js:84 | deleting an id no player has leaves the list unchanged |
| Players.Search | src/components/PlayerSection.js:91-93 | a player is shown iff it is in the list and its lower-cased name includes the lower-cased term |
| Players.SearchExact | src/components/PlayerSection.js:91-93 | the shown players are an order-preserving subsequence of the list holding every matching player as often as the list does and no other player |
| Players.SearchEmptyTerm | src/components/PlayerSection.js:91-93 | an empty search box shows the whole list, in order |
| Section.ShownPlayers | src/components/PlayerSection.js:91-93 | the shown players of a state are the list's players matching its search text; with empty search text they are the whole list |
| Section.LoadPlayers | src/components/PlayerSection.js:20-22 | the list button always sends one list request and sets the loading flag, visible list or not; nothing else changes |
| Section.PlayersLoaded | src/components/PlayerSection.js:23-32 | on success the received list replaces the players and the list becomes visible; on failure players and visibility stay; the loading flag drops either way; nothing else changes |
| Section.SetSearch | src/components/PlayerSection.js:128 | typing into the search box sets the search text and changes nothing else |
| Section.DeletePlayer | src/components/PlayerSection.js:79-82 | the delete button sends the delete request for that id and changes no state; the list changes only when the request settles |
| Section.OpenModal | src/components/PlayerSection.js:96-110 | opening with a player edits a copy of it in edit mode; opening without one starts from four empty fields and no id in create mode; the form opens; the list, search and flags outside the form are untouched |
| Section.CloseModal | src/components/PlayerSection.js:113-116 | closing hides the form and leaves edit mode; draft, players, search and list visibility are unchanged |
| Section.TypeField | src/components/PlayerSection.js:162-180 | typing changes only the typed field of the draft |
| Section.Save | src/components/PlayerSection.js:36-66 | an incomplete draft raises the alert, sends nothing and changes nothing; a complete one sends a create of the draft, or in edit mode an update addressed by the draft's id, without changing state |
| Section.PlayerCreated | src/components/PlayerSection.js:47-52 | a successful create appends the answered record after the unchanged old list and closes the form; a failure changes nothing |
| Section.PlayerUpdated | src/components/PlayerSection.js:67-75 | a successful update keeps length and order, turns each player with the answered id into the answer, and closes the form; a failure changes nothing |
| Section.PlayerDeleted | src/components/PlayerSection.js:83-87 | a resolved delete, whatever its status, makes the list the remove-by-id result (so `Players.RemoveByIdExact` applies: the order-preserving subsequence of players with another id); only the list changes; a rejected delete changes nothing |
| Section.EnabledRequests | src/components/PlayerSection.js:134-186 | among the controls the page renders, a create or update can be sent only from the open form, and a delete only for the id of a listed player while the list is visible |
| Section.EnabledRunSavesFromOpenForm | src/components/PlayerSection.js:154-186 | in any run of rendered controls, every save click happens while the form is open (the save button's placement carried along the run) |
| Section.Step | src/components/PlayerSection.js:120-188 | no event hides the list once shown, edit mode never outlives the open form, a completion never sends a request, only a successful list load makes the list visible, only completions change the list (every list update sits in a `.then`, at :25, :49, :72 and :85), and only the list, save and delete buttons send requests (the only `fetch` calls, at :22, :42, :62 and :80); an alert comes only from a save |
| Section.Run | src/components/PlayerSection.js:120-121 | over any sequence of events the list, once visible, stays visible, and edit mode keeps implying an open form |
| Section.VisibleOnlyAfterLoad | src/components/PlayerSection.js:24-28 | a run ends with the list visible only if it started visible or some list request in it succeeded |
| Section.ReachableConsistent | src/components/PlayerSection.js:96-116 | in every state reachable from the first render, edit mode implies the form is open |
| Scenarios.Loaded | src/components/PlayerSection.js:20-28 | clicking the list button and receiving a list shows that list with the loading flag off |
| Scenarios.SearchKim | src/components/PlayerSection.js:91-93 | with Kim loaded, "ki" shows Kim and "zz" shows nobody |
| Scenarios.CreateLee | src/components/PlayerSection.js:36-53 | filling in Lee and saving sends a create of exactly that draft; the answer lands after Kim and the form closes |
| Scenarios.SaveEmptyDraft | src/components/PlayerSection.js:37-40 | saving a freshly opened empty form only raises the alert |
| Scenarios.DeleteKim | src/components/PlayerSection.js:79-88 | deleting "1" from Kim and Lee leaves Lee; a delete of the unknown "9" leaves both, whether the request resolves with any status or is rejected |

## Left out

- Requests, URLs, headers and JSON encoding are not modelled. A request is an effect value. Its completion is an event carrying `Ok(body)` or `Fail`.
- The `console.error` diagnostics are not modelled. The alert is modelled only as the `AlertMissingFields` effect, without its text.
- Rendering is not modelled, including the loading text, the button labels and the "no results" message. Of the markup, only which handler each control calls is modelled, and which controls are rendered in a state (`Section.Enabled`).
- Section.Step: events are not restricted to the controls rendered in a state. `Step` and `Run` accept every event in every state, a superset of what the page can produce. Their safety properties therefore also hold for runs of rendered controls only. `Section.EnabledRun` picks out those runs.
- Section.PlayersLoaded: list answers that are JSON but not an array of player records (for example an error body sent with a 404 or 500 status) are not modelled. In the source they are stored anyway, and the filter at src/components/PlayerSection.js:91-92 then throws during render.
- Section.PlayerCreated: create answers that are JSON but not a player record (for example an error body) are not modelled. In the source they are appended anyway, and `player.name.toLowerCase()` at src/components/PlayerSection.js:92 then throws during render.
- Section.PlayerUpdated: update answers that are JSON but not a player record are not modelled, for the same reason.
- Interleaving of requests in flight is not modelled. Each completion is applied to the state current when it arrives. The source's callbacks instead use the `allPlayers` captured when the request was sent, so two overlapping requests can lose one update. That case is not modelled.
- Text.Lower, Text.MatchesSearch: `toLowerCase` is modelled as ASCII lower-casing only; other Unicode case mappings are not modelled.
- Players.HasAllFields: the fields are modelled as strings, so only the empty string fails the check. A server record whose field is a number or missing, which JavaScript's truthiness would treat differently, is not modelled.
- Players.ReplaceById: ids are modelled as optional strings compared by value. The case of a number id compared with a string id under `===` is not modelled.
- A request that never settles is a run with no completion event, so `loading` stays true. No timeout is modelled because the source has none.
- src/App.js only places the section in the page and is not part of this model.

=== FILE: players.dfy ===
/** The player record and the list operations the section performs on it:
    the field check used before saving, replace-by-id after an update,
    remove-by-id after a delete, and the name search. */
module Players {
  import opened Wrappers
  import opened Seqs
  import opened Text

  /** A player as the server returns it. `id` is absent in a draft that was never saved.
      The career years are free text: the form sends them as the text typed. */
  datatype Player = Player(
    id: Option<string>,
    name: string,
    position: string,
    careerStart: string,
    careerEnd: string)

  /** The four text fields of the form. */
  datatype Field = Name | Position | CareerStart | CareerEnd

  /** The draft the add button starts from: four empty fields and no id. */
  const EmptyDraft: Player := Player(None, "", "", "", "")

  /** The value of one form field. */
  function FieldOf(p: Player, f: Field): string
  {
    match f
    case Name => p.name
    case Position => p.position
    case CareerStart => p.careerStart
    case CareerEnd => p.careerEnd
  }

  /** The draft after typing `v` into field `f`: the object spread `{ ...draft, f: v }`. */
  function WithField(p: Player, f: Field, v: string): (q: Player)
    ensures FieldOf(q, f) == v
    ensures forall g :: g != f ==> FieldOf(q, g) == FieldOf(p, g)
    ensures q.id == p.id
  {
    match f
    case Name => p.(name := v)
    case Position => p.(position := v)
    case CareerStart => p.(careerStart := v)
    case CareerEnd => p.(careerEnd := v)
  }

  /** The check both save paths make before sending anything: no field may be the empty string. */
  predicate HasAllFields(p: Player)
    ensures HasAllFields(p) <==> forall f :: FieldOf(p, f) != ""
  {
    assert FieldOf(p, Name) == p.name && FieldOf(p, Position) == p.position;
    assert FieldOf(p, CareerStart) == p.careerStart && FieldOf(p, CareerEnd) == p.careerEnd;
    p.name != "" && p.position != "" && p.careerStart != "" && p.careerEnd != ""
  }

  /** The list after an update response `rec`: every player whose id equals `rec.id`
      becomes `rec`, every other player stays, and the order is kept. */
  function ReplaceById(s: seq<Player>, rec: Player): (r: seq<Player>)
    ensures |r| == |s|
    ensures forall i :: 0 <= i < |s| ==> r[i] == (if s[i].id == rec.id then rec else s[i])
  {
    if |s| == 0 then []
    else [if s[0].id == rec.id then rec else s[0]] + ReplaceById(s[1..], rec)
  }

  /** Replacing with the same response twice changes nothing the second time. */
  lemma ReplaceByIdIdempotent(s: seq<Player>, rec: Player)
    ensures ReplaceById(ReplaceById(s, rec), rec) == ReplaceById(s, rec)
  {
  }

  /** A response whose id matches no player leaves the list as it was. */
  lemma ReplaceByIdAbsent(s: seq<Player>, rec: Player)
    requires forall p :: p in s ==> p.id != rec.id
    ensures ReplaceById(s, rec) == s
  {
  }

  /** After the replacement, `rec` is the only record left carrying its id, and it is
      present exactly when some player had that id before. */
  lemma ReplaceByIdMembers(s: seq<Player>, rec: Player)
    ensures forall p :: p in ReplaceById(s, rec) && p.id == rec.id ==> p == rec
    ensures rec in ReplaceById(s, rec) <==> exists p :: p in s && p.id == rec.id
  {
  }

  /** The filter test of a delete: keep the players whose id differs from `id`. */
  function OtherId(id: Option<string>): Player -> bool
  {
    (p: Player) => p.id != id
  }

  /** The list after a delete of `id`: the players with a different id, in their order. */
  function RemoveById(s: seq<Player>, id: Option<string>): (r: seq<Player>)
    ensures |r| <= |s|
    ensures forall p :: p in r <==> p in s && p.id != id
  {
    Filter(s, OtherId(id))
  }

  /** The delete keeps exactly the players with another id: it is a subsequence of the
      old list, keeps every such player as often as before, and is the only such subsequence. */
  lemma RemoveByIdExact(s: seq<Player>, id: Option<string>)
    ensures SubseqOf(RemoveById(s, id), s)
    ensures forall p: Player :: p.id != id ==> multiset(RemoveById(s, id))[p] == multiset(s)[p]
    ensures forall p: Player :: p.id == id ==> multiset(RemoveById(s, id))[p] == 0
    ensures forall r: seq<Player> :: SubseqOf(r, s) && (forall p :: p in r ==> p.id != id)
                        && (forall p: Player :: p.id != id ==> multiset(r)[p] == multiset(s)[p])
                        ==> r == RemoveById(s, id)
  {
    FilterIsSubseq(s, OtherId(id));
    forall p: Player
      ensures multiset(RemoveById(s, id))[p] == if p.id != id then multiset(s)[p] else 0
    {
      FilterCounts(s, OtherId(id), p);
    }
    forall r: seq<Player> | SubseqOf(r, s) && (forall p :: p in r ==> p.id != id)
               && (forall p: Player :: p.id != id ==> multiset(r)[p] == multiset(s)[p])
      ensures r == RemoveById(s, id)
    {
      FilterUnique(s, OtherId(id), r);
    }
  }

  /** Deleting the same id twice is deleting it once. */
  lemma RemoveByIdIdempotent(s: seq<Player>, id: Option<string>)
    ensures RemoveById(RemoveById(s, id), id) == RemoveById(s, id)
  {
    FilterIdempotent(s, OtherId(id));
  }

  /** Deleting an id no player carries leaves the list unchanged. */
  lemma RemoveByIdAbsent(s: seq<Player>, id: Option<string>)
    requires forall p :: p in s ==> p.id != id
    ensures RemoveById(s, id) == s
  {
    FilterKeepsAll(s, OtherId(id));
  }

  /** The filter test of the search box. */
  function NameMatches(term: string): Player -> bool
  {
    (p: Player) => MatchesSearch(p.name, term)
  }

  /** The players shown for search text `term`: those whose lower-cased name includes the
      lower-cased term, in list order. */
  function Search(s: seq<Player>, term: string): (r: seq<Player>)
    ensures |r| <= |s|
    ensures forall p :: p in r <==> p in s && MatchesSearch(p.name, term)
  {
    Filter(s, NameMatches(term))
  }

  /** The search result is exactly the matching players: an order-preserving subsequence
      of the list that keeps every matching player as often as the list holds it. */
  lemma SearchExact(s: seq<Player>, term: string)
    ensures SubseqOf(Search(s, term), s)
    ensures forall p: Player :: MatchesSearch(p.name, term) ==> multiset(Search(s, term))[p] == multiset(s)[p]
    ensures forall p: Player :: !MatchesSearch(p.name, term) ==> multiset(Search(s, term))[p] == 0
  {
    FilterIsSubseq(s, NameMatches(term));
    forall p: Player
      ensures multiset(Search(s, term))[p]
              == if MatchesSearch(p.name, term) then multiset(s)[p] else 0
    {
      FilterCounts(s, NameMatches(term), p);
    }
  }

  /** An empty search box shows the whole list. */
  lemma SearchEmptyTerm(s: seq<Player>)
    ensures Search(s, "") == s
  {
    forall p | p in s
      ensures NameMatches("")(p)
    {
      EmptyTermMatches(p.name);
    }
    FilterKeepsAll(s, NameMatches(""));
  }
}

=== FILE: scenarios.dfy ===
/** Concrete runs of the section: loading a list and searching it, creating a player,
    saving an empty form, and deleting by id. */
module Scenarios {
  import opened Wrappers
  import opened Players
  import opened Section

  const Kim: Player := Player(Some("1"), "Kim", "MID", "2010", "2020")
  const Lee: Player := Player(Some("2"), "Lee", "FW", "2015", "2023")

  /** The state after clicking the list button and receiving `ps`. */
  function Loaded(ps: seq<Player>): (s: State)
    ensures s.players == ps && s.listVisible && !s.loading
    ensures !s.modalVisible && s.searchTerm == ""
  {
    Step(Step(Initial, ListClicked).next, ListLoaded(Ok(ps))).next
  }

  /** After the list loads with Kim, "ki" finds Kim and "zz" finds nobody. */
  lemma SearchKim()
    ensures ShownPlayers(Step(Loaded([Kim]), SearchTyped("ki")).next) == [Kim]
    ensures ShownPlayers(Step(Loaded([Kim]), SearchTyped("zz")).next) == []
  {
    assert Text.Lower("Kim") == "kim";
    assert Text.Lower("ki") == "ki";
    assert Text.Lower("zz") == "zz";
    assert Text.Includes("kim", "ki") by {
      assert Text.OccursAt("kim", "ki", 0);
    }
    assert !Text.Includes("kim", "zz") by {
      assert "kim"[..2] == "ki" && "kim"[1..] == "im";
      assert "im"[..2] == "im" && "im"[1..] == "m";
    }
    assert Kim in ShownPlayers(Step(Loaded([Kim]), SearchTyped("ki")).next);
  }

  /** Filling in Lee and saving sends a create of the draft; the server's answer is
      appended after Kim and the form closes. */
  lemma CreateLee()
    ensures var draft := Player(None, "Lee", "FW", "2015", "2023");
            var s0 := Step(Loaded([Kim]), ModalOpened(None)).next;
            var s1 := Step(Step(s0, FieldTyped(Name, "Lee")).next, FieldTyped(Position, "FW")).next;
            var s := Step(Step(s1, FieldTyped(CareerStart, "2015")).next, FieldTyped(CareerEnd, "2023")).next;
            && s.draft == draft
            && Step(s, SaveClicked).effect == Send(Post(draft))
            && Step(s, Created(Ok(Lee))).next.players == [Kim, Lee]
            && !Step(s, Created(Ok(Lee))).next.modalVisible
  {
  }

  /** Saving an empty form only raises the alert. */
  lemma SaveEmptyDraft()
    ensures var s := Step(Initial, ModalOpened(None)).next;
            Step(s, SaveClicked) == Transition(s, AlertMissingFields)
  {
  }

  /** Deleting id "1" from [Kim, Lee] leaves [Lee]. A delete of the unknown id "9" leaves
      the list as it was, both when the server answers (with any status) and when the
      request is rejected. */
  lemma DeleteKim()
    ensures Step(Loaded([Kim, Lee]), Deleted(Some("1"), Ok(()))).next.players == [Lee]
    ensures Step(Loaded([Kim, Lee]), Deleted(Some("9"), Ok(()))).next.players == [Kim, Lee]
    ensures Step(Loaded([Kim, Lee]), Deleted(Some("9"), Fail)).next.players == [Kim, Lee]
  {
    RemoveByIdAbsent([Kim, Lee], Some("9"));
  }
}

=== FILE: section.dfy ===
/** The player section as a reducer: a user action or the completion of a request
    maps the section's state to a new state and at most one outgoing effect. */
module Section {
  import opened Wrappers
  import opened Players

  /** Everything the section keeps between renders. */
  datatype State = State(
    players: seq<Player>,   // the full list, as last received or changed
    listVisible: bool,      // whether the list has been shown
    searchTerm: string,     // the search box text
    loading: bool,          // set by the list button, cleared by any list completion
    draft: Player,          // the form contents
    modalVisible: bool,     // whether the form is open
    editMode: bool)         // whether saving updates (true) or creates (false)

  /** The state on first render. */
  const Initial: State := State([], false, "", false, EmptyDraft, false, false)

  /** A request the section sends to the remote store. */
  datatype Request =
    | GetAll                                    // list all players
    | Post(body: Player)                        // create from the draft
    | Put(target: Option<string>, body: Player) // update the record named by the draft's id
    | Delete(target: Option<string>)            // delete one record

  /** What a step does besides changing state. */
  datatype Effect = NoEffect | AlertMissingFields | Send(request: Request)

  datatype Transition = Transition(next: State, effect: Effect)

  /** The events the section reacts to: user actions, then the completions of the
      requests they send. A completion carries the decoded body it settled with. */
  datatype Event =
    | ListClicked
    | ListLoaded(list: Result<seq<Player>>)
    | SearchTyped(text: string)
    | ModalOpened(target: Option<Player>)
    | ModalClosed
    | FieldTyped(field: Field, text: string)
    | SaveClicked
    | Created(created: Result<Player>)
    | Updated(updated: Result<Player>)
    | DeleteClicked(id: Option<string>)
    | Deleted(deleted: Option<string>, settled: Result<()>)
  {
    /** The event is the completion of an earlier request rather than a user action. */
    predicate IsCompletion()
    {
      ListLoaded? || Created? || Updated? || Deleted?
    }
  }

  /** The form is never in edit mode while it is closed. */
  predicate ModalConsistent(s: State)
  {
    s.editMode ==> s.modalVisible
  }

  /** What the list shows: the players whose name matches the search box. */
  function ShownPlayers(s: State): (r: seq<Player>)
    ensures forall p :: p in r <==> p in s.players && Text.MatchesSearch(p.name, s.searchTerm)
    ensures s.searchTerm == "" ==> r == s.players
  {
    SearchEmptyTerm(s.players);
    Search(s.players, s.searchTerm)
  }

  /** The list button: starts loading and asks for the whole list. The button does the
      same whether or not the list is already visible; only its label differs. */
  function LoadPlayers(s: State): (t: Transition)
    ensures t.effect == Send(GetAll)
    ensures t.next.loading
    ensures t.next.players == s.players && t.next.listVisible == s.listVisible
    ensures t.next.(loading := s.loading) == s
  {
    Transition(s.(loading := true), Send(GetAll))
  }

  /** Completion of the list request. On success the received list replaces the old one
      and the list becomes visible; on failure only the loading flag drops. */
  function PlayersLoaded(s: State, list: Result<seq<Player>>): (t: Transition)
    ensures t.effect == NoEffect
    ensures !t.next.loading
    ensures list.Ok? ==> t.next.players == list.value && t.next.listVisible
    ensures list.Fail? ==> t.next.players == s.players && t.next.listVisible == s.listVisible
    ensures t.next.(players := s.players, listVisible := s.listVisible, loading := s.loading) == s
  {
    match list
    case Ok(ps) => Transition(s.(players := ps, loading := false, listVisible := true), NoEffect)
    case Fail => Transition(s.(loading := false), NoEffect)
  }

  /** Opening the form: with a player it edits a copy of that player; without one it
      starts a new player from four empty fields. The list is untouched. */
  function OpenModal(s: State, target: Option<Player>): (t: State)
    ensures t.modalVisible
    ensures target.Some? ==> t.draft == target.value && t.editMode
    ensures target.None? ==> t.draft.id.None? && !t.editMode
    ensures target.None? ==> forall f :: FieldOf(t.draft, f) == ""
    ensures t.(draft := s.draft, modalVisible := s.modalVisible, editMode := s.editMode) == s
  {
    match target
    case Some(p) => s.(draft := p, editMode := true, modalVisible := true)
    case None => s.(draft := EmptyDraft, editMode := false, modalVisible := true)
  }

  /** Closing the form: it hides and leaves edit mode. The draft is kept as it is. */
  function CloseModal(s: State): (t: State)
    ensures !t.modalVisible && !t.editMode
    ensures t.draft == s.draft && t.players == s.players
    ensures t.(modalVisible := s.modalVisible, editMode := s.editMode) == s
  {
    s.(modalVisible := false, editMode := false)
  }

  /** Typing into the search box: only the search text changes. */
  function SetSearch(s: State, text: string): (t: State)
    ensures t.searchTerm == text
    ensures t.players == s.players && t.draft == s.draft
    ensures t.(searchTerm := s.searchTerm) == s
  {
    s.(searchTerm := text)
  }

  /** The delete button: sends the delete request for `id` and changes no state; the
      list changes only when the request settles. */
  function DeletePlayer(s: State, id: Option<string>): (t: Transition)
    ensures t.effect == Send(Delete(id))
    ensures t.next == s
  {
    Transition(s, Send(Delete(id)))
  }

  /** Typing into one form field. */
  function TypeField(s: State, f: Field, v: string): (t: State)
    ensures FieldOf(t.draft, f) == v
    ensures forall g :: g != f ==> FieldOf(t.draft, g) == FieldOf(s.draft, g)
    ensures t.draft.id == s.draft.id
    ensures t.(draft := s.draft) == s
  {
    s.(draft := WithField(s.draft, f, v))
  }

  /** The save button: an incomplete draft raises an alert and changes nothing;
      a complete one is sent as a create, or in edit mode as an update of its id. */
  function Save(s: State): (t: Transition)
    ensures !HasAllFields(s.draft) ==> t == Transition(s, AlertMissingFields)
    ensures HasAllFields(s.draft) ==> t.next == s
    ensures HasAllFields(s.draft) && !s.editMode ==> t.effect == Send(Post(s.draft))
    ensures HasAllFields(s.draft) && s.editMode ==> t.effect == Send(Put(s.draft.id, s.draft))
  {
    if !HasAllFields(s.draft) then Transition(s, AlertMissingFields)
    else if s.editMode then Transition(s, Send(Put(s.draft.id, s.draft)))
    else Transition(s, Send(Post(s.draft)))
  }

  /** Completion of a create. The record the server answered is appended and the form
      closes; a failed request changes nothing. */
  function PlayerCreated(s: State, created: Result<Player>): (t: State)
    ensures created.Ok? ==> |t.players| == |s.players| + 1
    ensures created.Ok? ==> t.players[..|s.players|] == s.players
    ensures created.Ok? ==> t.players[|s.players|] == created.value
    ensures created.Ok? ==> !t.modalVisible && !t.editMode && t.draft == s.draft
    ensures created.Ok? ==> t.(players := s.players, modalVisible := s.modalVisible, editMode := s.editMode) == s
    ensures created.Fail? ==> t == s
  {
    match created
    case Ok(rec) => CloseModal(s.(players := s.players + [rec]))
    case Fail => s
  }

  /** Completion of an update. Every player with the answered record's id becomes that
      record, the others stay in place, and the form closes; a failure changes nothing. */
  function PlayerUpdated(s: State, updated: Result<Player>): (t: State)
    ensures updated.Ok? ==> |t.players| == |s.players|
    ensures updated.Ok? ==> forall i :: 0 <= i < |s.players| ==>
              t.players[i] == (if s.players[i].id == updated.value.id then updated.value else s.players[i])
    ensures updated.Ok? ==> !t.modalVisible && !t.editMode
    ensures updated.Ok? ==> t.(players := s.players, modalVisible := s.modalVisible, editMode := s.editMode) == s
    ensures updated.Fail? ==> t == s
  {
    match updated
    case Ok(rec) => CloseModal(s.(players := ReplaceById(s.players, rec)))
    case Fail => s
  }

  /** Completion of a delete. Whatever status the server answered with, the players with
      that id leave the list; only a rejected request changes nothing. */
  function PlayerDeleted(s: State, id: Option<string>, settled: Result<()>): (t: State)
    ensures settled.Ok? ==> t.players == RemoveById(s.players, id)
    ensures settled.Ok? ==> forall p :: p in t.players <==> p in s.players && p.id != id
    ensures settled.Ok? ==> |t.players| <= |s.players|
    ensures t.(players := s.players) == s
    ensures settled.Fail? ==> t == s
  {
    match settled
    case Ok(_) => s.(players := RemoveById(s.players, id))
    case Fail => s
  }

  /** Whether the page offers the control that raises `e` in state `s`. The form's fields,
      save and cancel buttons exist only while the form is open; the edit and delete
      buttons exist only beside players the visible list shows; the list button, the
      search box and the add button are always there. Completions can arrive at any time. */
  predicate Enabled(s: State, e: Event)
  {
    match e
    case SaveClicked => s.modalVisible
    case ModalClosed => s.modalVisible
    case FieldTyped(_, _) => s.modalVisible
    case ModalOpened(Some(p)) => s.listVisible && p in ShownPlayers(s)
    case DeleteClicked(id) => s.listVisible && exists p :: p in ShownPlayers(s) && p.id == id
    case _ => true
  }

  /** Requests the page can actually send: a create or update only from the open form,
      a delete only for a player the visible list shows. Both follow from where the page
      renders the save and delete buttons (`Enabled`) together with which events `Step`
      turns into which requests. */
  lemma EnabledRequests(s: State, e: Event)
    requires Enabled(s, e)
    ensures var t := Step(s, e);
            t.effect.Send? && (t.effect.request.Post? || t.effect.request.Put?) ==> s.modalVisible
    ensures var t := Step(s, e);
            t.effect.Send? && t.effect.request.Delete? ==>
              s.listVisible && exists p :: p in s.players && p.id == t.effect.request.target
  {
  }

  /** Every event of `es` is offered by the page in the state it arrives in. */
  predicate EnabledRun(s: State, es: seq<Event>)
    decreases |es|
  {
    |es| == 0 || (Enabled(s, es[0]) && EnabledRun(Step(s, es[0]).next, es[1..]))
  }

  /** In a run of offered events the form is open whenever a save is clicked, so every
      create or update is sent from the open form. This is the save-button case of
      `Enabled` carried along the run; it says nothing further about `Step`. */
  lemma {:induction false} EnabledRunSavesFromOpenForm(s: State, es: seq<Event>, k: nat)
    requires EnabledRun(s, es)
    requires k < |es| && es[k] == SaveClicked
    ensures Run(s, es[..k]).modalVisible
    decreases |es|
  {
    if k == 0 {
      assert es[..0] == [];
    } else {
      assert es[..k][0] == es[0] && es[..k][1..] == es[1..][..k - 1];
      EnabledRunSavesFromOpenForm(Step(s, es[0]).next, es[1..], k - 1);
    }
  }

  /** The reducer. No event hides the list again, edit mode never outlives the form,
      a completion never sends a new request, only completions change the list, and
      only the list, save and delete buttons send requests. */
  function Step(s: State, e: Event): (t: Transition)
    ensures s.listVisible ==> t.next.listVisible
    ensures ModalConsistent(s) ==> ModalConsistent(t.next)
    ensures e.IsCompletion() ==> t.effect == NoEffect
    ensures !s.listVisible && t.next.listVisible ==> e.ListLoaded? && e.list.Ok?
    ensures !e.IsCompletion() ==> t.next.players == s.players
    ensures t.effect.Send? && t.effect.request.GetAll? <==> e.ListClicked?
    ensures t.effect.Send? && (t.effect.request.Post? || t.effect.request.Put?) ==> e.SaveClicked?
    ensures t.effect.Send? && t.effect.request.Delete? <==> e.DeleteClicked?
    ensures t.effect.AlertMissingFields? ==> e.SaveClicked?
  {
    match e
    case ListClicked => LoadPlayers(s)
    case ListLoaded(list) => PlayersLoaded(s, list)
    case SearchTyped(text) => Transition(SetSearch(s, text), NoEffect)
    case ModalOpened(target) => Transition(OpenModal(s, target), NoEffect)
    case ModalClosed => Transition(CloseModal(s), NoEffect)
    case FieldTyped(f, text) => Transition(TypeField(s, f, text), NoEffect)
    case SaveClicked => Save(s)
    case Created(created) => Transition(PlayerCreated(s, created), NoEffect)
    case Updated(updated) => Transition(PlayerUpdated(s, updated), NoEffect)
    case DeleteClicked(id) => DeletePlayer(s, id)
    case Deleted(id, settled) => Transition(PlayerDeleted(s, id, settled), NoEffect)
  }

  /** The state after a sequence of events, each handled atomically in order. */
  function Run(s: State, es: seq<Event>): (t: State)
    ensures s.listVisible ==> t.listVisible
    ensures ModalConsistent(s) ==> ModalConsistent(t)
    decreases |es|
  {
    if |es| == 0 then s else Run(Step(s, es[0]).next, es[1..])
  }

  /** The list is visible after a run only if it was before or some list request succeeded. */
  lemma {:induction false} VisibleOnlyAfterLoad(s: State, es: seq<Event>)
    ensures Run(s, es).listVisible ==>
              s.listVisible || exists i :: 0 <= i < |es| && es[i].ListLoaded? && es[i].list.Ok?
    decreases |es|
  {
    if |es| > 0 {
      var s' := Step(s, es[0]).next;
      VisibleOnlyAfterLoad(s', es[1..]);
      if Run(s, es).listVisible && !s.listVisible {
        if s'.listVisible {
          assert es[0].ListLoaded? && es[0].list.Ok?;
        } else {
          var j :| 0 <= j < |es[1..]| && es[1..][j].ListLoaded? && es[1..][j].list.Ok?;
          assert es[j + 1] == es[1..][j];
        }
      }
    }
  }

  /** In every state reachable from the first render, edit mode implies the form is open. */
  lemma ReachableConsistent(es: seq<Event>)
    ensures ModalConsistent(Run(Initial, es))
  {
  }
}

=== FILE: seqs.dfy ===
/** Order-preserving filtering of sequences, the model of `Array.prototype.filter`. */
module Seqs {

  /** `a` can be obtained from `b` by deleting elements, without reordering the rest. */
  ghost predicate SubseqOf<T>(a: seq<T>, b: seq<T>)
    decreases |b|
  {
    if |a| == 0 then true
    else if |b| == 0 then false
    else (a[0] == b[0] && SubseqOf(a[1..], b[1..])) || SubseqOf(a, b[1..])
  }

  /** A subsequence never holds more copies of a value than the sequence it comes from. */
  lemma {:induction false} SubseqCounts<T>(a: seq<T>, b: seq<T>, x: T)
    requires SubseqOf(a, b)
    ensures multiset(a)[x] <= multiset(b)[x]
    decreases |b|
  {
    if |a| == 0 {
    } else {
      assert b == [b[0]] + b[1..];
      if a[0] == b[0] && SubseqOf(a[1..], b[1..]) {
        assert a == [a[0]] + a[1..];
        SubseqCounts(a[1..], b[1..], x);
      } else {
        SubseqCounts(a, b[1..], x);
      }
    }
  }

  /** Keeps, in their original order, the elements for which `keep` holds. */
  function Filter<T(!new)>(s: seq<T>, keep: T -> bool): (r: seq<T>)
    ensures |r| <= |s|
    ensures forall x :: x in r <==> x in s && keep(x)
  {
    if |s| == 0 then []
    else if keep(s[0]) then [s[0]] + Filter(s[1..], keep)
    else Filter(s[1..], keep)
  }

  /** The filtered sequence is an order-preserving subsequence of the input. */
  lemma {:induction false} FilterIsSubseq<T(!new)>(s: seq<T>, keep: T -> bool)
    ensures SubseqOf(Filter(s, keep), s)
  {
    if |s| > 0 {
      FilterIsSubseq(s[1..], keep);
      var r := Filter(s, keep);
      if keep(s[0]) {
        assert r[0] == s[0] && r[1..] == Filter(s[1..], keep);
      }
    }
  }

  /** Every kept value occurs as often as in the input; every dropped value not at all. */
  lemma {:induction false} FilterCounts<T(!new)>(s: seq<T>, keep: T -> bool, x: T)
    ensures multiset(Filter(s, keep))[x] == if keep(x) then multiset(s)[x] else 0
  {
    if |s| > 0 {
      assert s == [s[0]] + s[1..];
      FilterCounts(s[1..], keep, x);
    }
  }

  /** The filter is the ONLY subsequence of `s` that holds kept elements alone and
      every kept value as often as `s` does. */
  lemma {:induction false} FilterUnique<T(!new)>(s: seq<T>, keep: T -> bool, r: seq<T>)
    requires SubseqOf(r, s)
    requires forall x :: x in r ==> keep(x)
    requires forall x :: keep(x) ==> multiset(r)[x] == multiset(s)[x]
    ensures r == Filter(s, keep)
    decreases |s|
  {
    if |s| == 0 {
    } else {
      var h, t := s[0], s[1..];
      assert s == [h] + t;
      if keep(h) {
        assert multiset(r)[h] == multiset(s)[h] >= 1;
        assert |r| > 0;
        assert r == [r[0]] + r[1..];
        if r[0] == h && SubseqOf(r[1..], t) {
          forall x | keep(x)
            ensures multiset(r[1..])[x] == multiset(t)[x]
          {
          }
          FilterUnique(t, keep, r[1..]);
        } else {
          SubseqCounts(r, t, h);
          assert false;
        }
      } else {
        if |r| > 0 {
          assert r[0] in r;
        }
        assert SubseqOf(r, t);
        FilterUnique(t, keep, r);
      }
    }
  }

  /** Filtering keeps everything when every element passes. */
  lemma {:induction false} FilterKeepsAll<T(!new)>(s: seq<T>, keep: T -> bool)
    requires forall x :: x in s ==> keep(x)
    ensures Filter(s, keep) == s
  {
    if |s| > 0 {
      assert s[0] in s;
      FilterKeepsAll(s[1..], keep);
    }
  }

  /** Filtering twice with the same test is filtering once. */
  lemma FilterIdempotent<T(!new)>(s: seq<T>, keep: T -> bool)
    ensures Filter(Filter(s, keep), keep) == Filter(s, keep)
  {
  }
}

=== FILE: text.dfy ===
/** The string operations the search box relies on: lower-casing and substring search. */
module Text {

  /** Two characters are the same letter up to ASCII case: equal, or an upper-case
      letter 'A'..'Z' and the character 32 code points above it. */
  predicate SameCharUpToCase(c: char, d: char)
  {
    || c == d
    || ('A' <= c <= 'Z' && d as int == c as int + 32)
    || ('A' <= d <= 'Z' && c as int == d as int + 32)
  }

  /** Two strings differ at most in the ASCII case of their letters. */
  ghost predicate SameUpToCase(a: string, b: string)
  {
    |a| == |b| && forall i :: 0 <= i < |a| ==> SameCharUpToCase(a[i], b[i])
  }

  /** Lower-casing of one character, restricted to ASCII: 'A'..'Z' become 'a'..'z'. */
  function LowerChar(c: char): char
  {
    if 'A' <= c <= 'Z' then (c as int + 32) as char else c
  }

  /** `toLowerCase` on a whole string: the result holds no upper-case ASCII letter and
      differs from the input only in case. */
  function Lower(s: string): (r: string)
    ensures SameUpToCase(r, s)
    ensures forall i :: 0 <= i < |r| ==> !('A' <= r[i] <= 'Z')
  {
    seq(|s|, i requires 0 <= i < |s| => LowerChar(s[i]))
  }

  /** Two strings lower-case to the same string exactly when they differ only in case. */
  lemma LowerEqualIff(a: string, b: string)
    ensures Lower(a) == Lower(b) <==> SameUpToCase(a, b)
  {
    if SameUpToCase(a, b) {
      assert forall i :: 0 <= i < |a| ==> Lower(a)[i] == Lower(b)[i];
    }
    if Lower(a) == Lower(b) {
      assert forall i :: 0 <= i < |a| ==> LowerChar(a[i]) == LowerChar(b[i]);
    }
  }

  /** Lower-casing twice is lower-casing once. */
  lemma LowerIdempotent(s: string)
    ensures Lower(Lower(s)) == Lower(s)
  {
  }

  /** `needle` occurs in `hay` starting at index `i`. */
  ghost predicate OccursAt(hay: string, needle: string, i: int)
  {
    0 <= i && i + |needle| <= |hay| && hay[i..i + |needle|] == needle
  }

  /** An occurrence at `i + 1` in `hay` is an occurrence at `i` in `hay` without its first character. */
  lemma OccursShift(hay: string, needle: string, i: int)
    requires |hay| > 0 && i >= 0
    ensures OccursAt(hay, needle, i + 1) <==> OccursAt(hay[1..], needle, i)
  {
  }

  /** `String.prototype.includes`: true when `needle` occurs somewhere in `hay`;
      the empty needle occurs in every string. */
  function Includes(hay: string, needle: string): (r: bool)
    ensures r <==> exists i :: OccursAt(hay, needle, i)
    decreases |hay|
  {
    if |needle| > |hay| then
      false
    else if hay[..|needle|] == needle then
      assert OccursAt(hay, needle, 0);
      true
    else
      var rest := Includes(hay[1..], needle);
      assert rest ==> exists i :: OccursAt(hay, needle, i) by {
        if rest {
          var j :| OccursAt(hay[1..], needle, j);
          OccursShift(hay, needle, j);
        }
      }
      assert (exists i :: OccursAt(hay, needle, i)) ==> rest by {
        if i :| OccursAt(hay, needle, i) {
          assert i != 0;
          OccursShift(hay, needle, i - 1);
        }
      }
      rest
  }

  /** `needle` occurs in `hay` at index `i` when case is ignored. */
  ghost predicate OccursUpToCaseAt(hay: string, needle: string, i: int)
  {
    0 <= i && i + |needle| <= |hay| && SameUpToCase(hay[i..i + |needle|], needle)
  }

  /** An exact occurrence in the lower-cased strings is an occurrence up to case in the originals. */
  lemma OccursLowerIff(hay: string, needle: string, i: int)
    ensures OccursAt(Lower(hay), Lower(needle), i) <==> OccursUpToCaseAt(hay, needle, i)
  {
    if 0 <= i && i + |needle| <= |hay| {
      assert Lower(hay)[i..i + |needle|] == Lower(hay[i..i + |needle|]);
      LowerEqualIff(hay[i..i + |needle|], needle);
    }
  }

  /** The search match of the player list: the lower-cased name includes the lower-cased
      term, which is to say some slice of the name equals the term up to ASCII case. */
  predicate MatchesSearch(name: string, term: string)
    ensures MatchesSearch(name, term) <==> exists i :: OccursUpToCaseAt(name, term, i)
  {
    assert forall i :: OccursAt(Lower(name), Lower(term), i) <==> OccursUpToCaseAt(name, term, i) by {
      forall i
        ensures OccursAt(Lower(name), Lower(term), i) <==> OccursUpToCaseAt(name, term, i)
      {
        OccursLowerIff(name, term, i);
      }
    }
    Includes(Lower(name), Lower(term))
  }

  /** Matching ignores the case of the search term: two terms that differ only in the
      case of their letters match the same names. */
  lemma MatchIgnoresTermCase(name: string, t1: string, t2: string)
    requires SameUpToCase(t1, t2)
    ensures MatchesSearch(name, t1) == MatchesSearch(name, t2)
  {
    LowerEqualIff(t1, t2);
  }

  /** Matching ignores the case of the name: two names that differ only in the case of
      their letters are matched by the same terms. */
  lemma MatchIgnoresNameCase(n1: string, n2: string, term: string)
    requires SameUpToCase(n1, n2)
    ensures MatchesSearch(n1, term) == MatchesSearch(n2, term)
  {
    LowerEqualIff(n1, n2);
  }

  /** The empty search term matches every name. */
  lemma EmptyTermMatches(name: string)
    ensures MatchesSearch(name, "")
  {
  }
}

=== FILE: wrappers.dfy ===
/** Optional values and the outcome of one network exchange. */
module Wrappers {

  /** A value that may be absent; a record's `id` is absent until the server assigns one. */
  datatype Option<+T> = None | Some(value: T)

  /** How a request's promise settled: `Ok` carries the decoded response body,
      `Fail` stands for any rejection (transport error or a body that is not JSON). */
  datatype Result<+T> = Ok(value: T) | Fail
}
